=== FILE: README.md ===
# Modal interaction safety, modelled in Dafny

This project models the interaction-safety core of a modal dialog that
ships two bindings: the `<custom-modal>` custom element
(`src/custom-modal.js`) and the React `Modal` component with its `useModal`
hook (`src/react-modal.js`). The DOM and React are abstracted away. Elements
are abstract identities (`nat`). Browser facts such as "has a layout box",
"`querySelector` throws" or "`closest()` matched" are inputs. Everything
observable is a value: the body's overflow slots, the element's attributes,
and an append-only log of dispatched events and `focus()` calls.

Files and modules:

- `js.dfy`, module `Js`: the JavaScript semantics the code relies on.
  That is `Option`, a `Value` type with `Truthy`, the `||` default on
  strings, and ASCII lower-casing.
- `scroll_lock.dfy`, module `ScrollLock`: the module-level counter of
  `enableScrollLock`/`disableScrollLock` with `body.style.overflow` and
  `body.dataset.scrollLockPrev`, run over arbitrary call sequences.
- `react_modal.dfy`, module `ReactModal`: the `ALIGN_MAP`/`JUSTIFY_MAP`
  lookup, the safe style merge, the lock effect gated on `open && lockScroll`
  across re-renders and unmount, Escape and backdrop gating, the portal
  selector check, and `useModal`'s open state driving all of these.
- `focus.dfy`, module `Focus`: the filter of `_getFocusableElements`, the
  `_handleKeydown` decision and the cyclic Tab trap.
- `custom_modal.dfy`, module `CustomModal`: the element's attributes,
  getters and setters, `attributeChangedCallback`, `_onOpen`/`_onClose`,
  overlay and close clicks, and keydown, all as pure steps. The keydown is
  modelled as written. `setAttribute`/`removeAttribute` and the `open`
  setter use the corrected `attributeChangedCallback` (see "## Findings");
  the trace invariant, that `modal-opened` and `modal-closed` alternate and
  match the state, is proved for that corrected callback. The written
  callback violates it (`CustomModal.ReopenCounterexample`).

## Behaviour worth knowing

- Releasing the lock when nobody holds it does not leave the body alone. The
  count stays 0, but the overflow is still written, from the saved slot or
  "auto" (`ScrollLock.ReleaseWhenFree`).
- A page whose inline overflow was empty gets "auto" back, not the empty
  string (`ScrollLock.BalancedRestoresOverflow`).
- The React Escape listener does not call `preventDefault`. The custom
  element's keydown does.

## Model

| member | source | states |
|---|---|---|
| ScrollLock.Enable | src/react-modal.js:19-26 | The count grows by one. Only on the 0 -> 1 edge is the overflow saved (an empty one as "auto") and set to "hidden". Otherwise the body is untouched. |
| ScrollLock.Disable | src/react-modal.js:28-35 | The count drops by one, floored at 0. Whenever it is then 0, the overflow becomes the saved value (or "auto") and the slot is cleared. While it stays positive, the body is untouched. |
| ScrollLock.CountNeverNegative | src/react-modal.js:28-29 | For any sequence of enable/disable calls from a non-negative count, the count stays non-negative. |
| ScrollLock.RunPreservesValid | src/react-modal.js:17-35 | Any call sequence keeps the lock valid. While held, the body is hidden with a non-empty saved value. While free, nothing is saved. |
| ScrollLock.ReleaseWhenFree | src/react-modal.js:28-35 | Over-release at count 0 keeps the count at 0, yet still sets the overflow to "auto". |
| ScrollLock.DisableUndoesEnable | src/react-modal.js:19-35 | Disable after enable gives back a held lock exactly. On a free page it gives back the page with its overflow defaulted to "auto". |
| ScrollLock.RunTracks | src/react-modal.js:17-35 | Without over-release, the count equals the start count plus acquires minus releases. The body stays consistent with the page's own overflow. |
| ScrollLock.BalancedRestoresOverflow | src/react-modal.js:17-35 | A non-empty, balanced, never over-releasing sequence from a fresh page ends with count 0, no saved slot, and the original overflow (or "auto" if it was empty). |
| ScrollLock.ShowsTracks | src/react-modal.js:17-35 | On a page with an own overflow, "shown" and "tracked" are the same. A fresh page of any overflow is shown. |
| ScrollLock.StepShows | src/react-modal.js:17-35 | A call that does not over-release keeps the page shown. An unset overflow is read back as "auto" once the lock has been taken. |
| ScrollLock.NestedModals | src/react-modal.js:17-35 | Enable, enable, disable leaves the page hidden. One more disable restores the original overflow. |
| ReactModal.LookupAsWritten | src/react-modal.js:132-133 | `MAP[key] \|\| "center"` as JavaScript evaluates it. Own keys give their value. Names inherited from `Object.prototype` give the inherited member. Anything else gives "center". |
| ReactModal.Lookup | src/react-modal.js:132-133 | The intended lookup: a table entry if the key has one, else "center". |
| ReactModal.AlignItems | src/react-modal.js:4-8 | As intended (see "## Findings"): "left" gives flex-start and "right" gives flex-end, each if and only if. Every other value gives "center". |
| ReactModal.JustifyContent | src/react-modal.js:10-14 | As intended (see "## Findings"): "top" gives flex-start and "bottom" gives flex-end, each if and only if. Every other value gives "center". |
| ReactModal.LookupAgreement | src/react-modal.js:132-133 | For both `align` and `justify`, the written and intended lookups agree on every key except the `Object.prototype` names. On those, the written one does not fall back. |
| ReactModal.ConstructorCounterexample | src/react-modal.js:132-133 | `align="constructor"` and `justify="constructor"` each yield the inherited constructor, not "center". |
| ReactModal.SafeContainerStyle | src/react-modal.js:135-146 | `pointerEvents` is always "auto". Every other caller property overrides the defaults. Defaults remain where the caller is silent. No other keys appear. |
| ReactModal.SafeDialogStyle | src/react-modal.js:148-158 | `display` is always "flex", whatever `style.display` was. Every other caller property overrides the defaults. No other keys appear. |
| ReactModal.ContainerDisplayNotPinned | src/react-modal.js:135-146 | Only `pointerEvents` is pinned on the container. A caller's `display` and `alignItems` win. |
| ReactModal.Commit | src/react-modal.js:86-93 | A render with unchanged dependencies leaves the lock alone. Otherwise the count moves by the change in what this Modal holds, and a change that keeps holding (or not holding) nets to zero. |
| ReactModal.RerenderHoldsOne | src/react-modal.js:86-93 | Across re-renders, a mounted Modal holds exactly one lock when its last props are `open && lockScroll`, and none otherwise. |
| ReactModal.RerenderTracks | src/react-modal.js:86-93 | For a page whose own overflow is non-empty, re-renders keep the page consistent with that overflow. |
| ReactModal.CommitShows | src/react-modal.js:86-93 | One effect commit moves the count by the change in what the Modal holds, and keeps any page, the default one included, in a state its overflow can show. |
| ReactModal.RerenderDefaultPage | src/react-modal.js:86-93 | On the default page (unset overflow), re-renders leave the page untouched exactly until some render holds the lock. From then on it tracks "auto". |
| ReactModal.SessionOnDefaultPage | src/react-modal.js:86-93 | A session on the default page ends with overflow "auto" if any render held the lock, and untouched otherwise. |
| ReactModal.SessionReleasesLock | src/react-modal.js:86-93 | Mount, any re-renders, then unmount leave the counter where it started. Each acquisition is paired with one release. |
| ReactModal.SessionRestoresPage | src/react-modal.js:86-93 | For a page whose own overflow is non-empty, such a session leaves the whole lock state as it found it. This holds whether other modals hold the lock or not. |
| ReactModal.EscapeCallsClose | src/react-modal.js:95-108 | `onClose` is called if and only if the key is Escape, `open && closeOnEsc` holds and an `onClose` was given. While closed or with `closeOnEsc` off, nothing is called. |
| ReactModal.BackdropCallsClose | src/react-modal.js:181 | The overlay click calls `onClose` if and only if `dismissOnBackdrop` holds and an `onClose` was given. |
| ReactModal.PortalTarget | src/react-modal.js:41-52 | The result is the input exactly when the input is a non-empty string, every character is in the regex class, and `querySelector` does not throw. Otherwise it is "body". The result always passes the check. |
| ReactModal.CheckPortalTarget | src/react-modal.js:42-47 | The character-by-character check computes the same selector as PortalTarget. |
| ReactModal.PortalTargetIdempotent | src/react-modal.js:41-52 | Validating a validated selector changes nothing. |
| ReactModal.NextOpen | src/react-modal.js:200-204 | `openModal` sets open and `closeModal` clears it. Only `openModal` or `setOpen(true)` can open a closed Modal. |
| ReactModal.KeyAndBackdropClose | src/react-modal.js:95-108 | For a hook-driven Modal, Escape closes exactly when open with `closeOnEsc`. A backdrop click closes exactly when open with `dismissOnBackdrop`. Other keys change nothing. |
| ReactModal.HookHoldsLockWhileOpen | src/react-modal.js:86-93 | For any events and from any page, a hook-driven Modal holds one lock exactly while open with `lockScroll`, on top of other holders. |
| ReactModal.HookKeepsPage | src/react-modal.js:86-93 | For any events, the page stays in a state its own overflow can show: untouched, or hidden and restored to that overflow ("auto" when unset). This includes a fresh hook on the default page. |
| Focus.FilterFocusable | src/custom-modal.js:340-348 | Every candidate that is not disabled, not `aria-hidden="true"` and has a layout box is kept. Everything kept is such a candidate. |
| Focus.FilterAppend | src/custom-modal.js:336-349 | Filtering a concatenation is the concatenation of the filtered parts, so order is preserved. |
| Focus.FilterSingle | src/custom-modal.js:340-348 | A single candidate is kept exactly when it passes the three tests. |
| Focus.FocusableElements | src/custom-modal.js:336-349 | The focusable list is the filtered shadow-tree matches followed by the filtered light-tree matches. |
| Focus.HandleKeydown | src/custom-modal.js:298-334 | Closed: no action and no preventDefault. Escape while open: close with preventDefault. Other non-Tab keys: nothing. Tab with an empty list: focus the dialog. A focus target is always in the list. Default is prevented exactly when something is done. |
| Focus.TabCases | src/custom-modal.js:320-334 | Shift+Tab on the first element focuses the last. Tab on the last focuses the first. Otherwise focus and default are left alone. |
| Focus.TabCycles | src/custom-modal.js:313-334 | As intended: on a list without repeats, when the compared element is `f[i]` itself, Tab from element i lands on i+1 and Shift+Tab on i-1, cyclically, so focus never leaves the list. The code compares `f[i]` only for elements outside the shadow tree (`Focus.KeydownLightFocus`). |
| Focus.KeydownAsWritten | src/custom-modal.js:298-334 | The written decision: closed does nothing, Escape closes, Tab on an empty list focuses the dialog. A wrap targets a list element, and happens only while focus is outside the shadow tree, because focus inside it is compared as the host, which is never in the list. |
| Focus.Keydown | src/custom-modal.js:298-334 | The intended keydown compares against the element that really has focus. It never targets anything outside the list. |
| Focus.KeydownTrapsFocus | src/custom-modal.js:320-334 | With that comparison, the trap is cyclic over the whole list, including shadow-tree elements. |
| Focus.KeydownLightFocus | src/custom-modal.js:320-334 | While focus is outside the shadow tree, the written keydown decides exactly as the intended one. They can differ only while a shadow-tree node has focus. |
| Focus.ShadowFirstCounterexample | src/custom-modal.js:322-328 | With the default close button focused, the written keydown lets Shift+Tab escape. The intended one wraps to the last element. |
| Focus.InitialFocus | src/custom-modal.js:356-363 | Initial focus goes to the first focusable element if there is one, else to the dialog. |
| CustomModal.ShadowPartsReportHost | src/custom-modal.js:322 | For a well-formed element, focus on the overlay, the dialog or the host is reported at document level as the host. |
| CustomModal.IsFalseAttr | src/custom-modal.js:277-280 | A flag reads false only while its attribute is present, and the attribute "false" always reads false. |
| CustomModal.OnOpen | src/custom-modal.js:351-364 | `lastActive` becomes `document.activeElement`, and exactly one `modal-opened` is added to the events. Attributes are untouched. |
| CustomModal.OnClose | src/custom-modal.js:366-372 | Exactly one `modal-closed` is added to the events, followed by a focus call on the recorded element if there is one. Attributes and the recorded element are untouched. |
| CustomModal.AttributeChangedAsWritten | src/custom-modal.js:206-218 | As written: an unchanged value or any name but `open` does nothing. Any change of `open`'s value runs `_onOpen` if the attribute is now present, else `_onClose`. |
| CustomModal.FalseAttrSpellings | src/custom-modal.js:277-280 | A boolean-ish attribute reads false exactly when it is present under its lower-cased name and spells "false" in any case. |
| CustomModal.CallbacksAgreeOnEdges | src/custom-modal.js:206-218 | The written and intended callbacks agree except when `open` changes value while staying present. There, the written one runs `_onOpen` again. |
| CustomModal.SetAttribute | src/custom-modal.js:206-218 | As intended (see "## Findings"): the value is stored under the lower-cased name and reads back. Setting `open` on a closed element records the active element and logs exactly one `modal-opened`. Any other set logs nothing. |
| CustomModal.RemoveAttribute | src/custom-modal.js:206-218 | The attribute is gone under its lower-cased name. Removing `open` from an open element logs exactly one `modal-closed`, then focuses the recorded element if any. Any other removal logs nothing. |
| CustomModal.AttributeNamesFold | src/custom-modal.js:169-171 | Any spelling of an attribute name gets, sets and removes the same attribute with the same callbacks, so `OPEN` opens like `open`. |
| CustomModal.SetOpen | src/custom-modal.js:225-235 | As intended (see "## Findings"): reading `open` back gives the value's truthiness. A redundant set logs nothing. Each edge logs exactly its one event. Other attributes are unchanged. |
| CustomModal.SetFlag | src/custom-modal.js:249-255 | Only `false` writes "false". The flag then reads false exactly when the value was `false`. Nothing else changes. |
| CustomModal.SetCloseOnBackdrop | src/custom-modal.js:245-255 | Round trip: `closeOnBackdrop` reads `v !== false`. `showClose`, `open` and the log are unchanged. |
| CustomModal.SetShowClose | src/custom-modal.js:257-267 | Round trip: `showClose` reads `v !== false`. `closeOnBackdrop`, `open` and the log are unchanged. |
| CustomModal.OverlayClick | src/custom-modal.js:282-289 | A click on any other target changes nothing. The element closes exactly when the target is the overlay and `closeOnBackdrop` holds. |
| CustomModal.OverlayClickOnce | src/custom-modal.js:282-289 | A closing backdrop click logs exactly one `modal-closed` and the focus restore. Clicking the same target again changes nothing more. |
| CustomModal.CloseClick | src/custom-modal.js:291-296 | A matched close click closes. An unmatched one changes nothing. |
| CustomModal.HandleKey | src/custom-modal.js:298-334 | When closed, nothing happens. Escape closes with one `modal-closed` and focus restore. Other keys keep attributes and the recorded element. Tab with nothing focusable focuses the dialog. Otherwise Tab compares the list's ends with the document-level active element, which is the host while a shadow-tree node has focus. It wraps on a match and leaves focus to the browser on a miss. |
| CustomModal.ApplyConsistent | src/custom-modal.js:206-218 | As intended (see "## Findings"): every step keeps the events alternating and consistent with the open state. |
| CustomModal.ReplayConsistent | src/custom-modal.js:351-372 | As intended (see "## Findings"): over any trace, `modal-opened` and `modal-closed` alternate, starting with opened. There is one more opened than closed exactly while open. |
| CustomModal.ReopenCounterexample | src/custom-modal.js:206-218 | As written, `open="true"` then `el.open = true` logs a second `modal-opened`, and a later close focuses the wrong element. As intended, neither happens. |

## Left out

- Presentation: the CSS template, custom properties, the `size` rules, shadow-DOM construction and `_syncAria`. `aria-label` and `size` changes reach the callback but change no modelled state.
- Deferred focus timing: the `requestAnimationFrame` in `_onOpen` and the `setTimeout`/`clearTimeout` of the React initial focus are host scheduling. Only the choice of target is modelled (`Focus.InitialFocus`). The React binding's own initial-focus query, an unfiltered `querySelector`, is not modelled.
- DOM queries: `querySelectorAll`, `offsetParent`, `getClientRects`, `closest()` and `querySelector` are inputs. These are the candidates with their flags, the `matched` flag, and the `queryThrows` oracle. Which node the portal is finally mounted into (`?? document.body`) is not modelled.
- React plumbing: rendering, `createPortal`, the Portal append/remove effect, and the `ModalSlot` spread. Because of that spread, an `onClose` in the hook's options would replace `closeModal`; the model assumes it does not.
- CustomModal.OnClose: `dispatchEvent` runs `modal-opened` and `modal-closed` listeners synchronously, inside `_onOpen` and `_onClose`. Each callback is modelled as one atomic step, and listeners are assumed not to change `open`. A `modal-closed` listener that sets `el.open = true` re-enters the callback, so `_onOpen` records a new `_lastActive` before `_onClose` restores focus. That re-entrant interleaving is not modelled; `CustomModal.OnOpen` has the same limit.
- Listener wiring (`connectedCallback`, `disconnectedCallback`) and `_upgradeProperty`: DOM lifecycle boilerplate.
- Type declaration files: they carry no behaviour.
- Style values are modelled as text, and a `null` style prop as an empty map.
- Focus.DocumentActive: the retargeting rule has no contract of its own. It is stated through `Focus.KeydownLightFocus`, `Focus.ShadowFirstCounterexample` and `CustomModal.HandleKey`. Whether `getRootNode()` is the document or an enclosing shadow root, its `activeElement` reports focus inside this element's shadow tree as this host. Focus outside an enclosing shadow root reads as `null` there, which never equals a list element, so the decision is the same as with no focus.
- CustomModal.SetAttribute: it runs the corrected callback, so it does not promise the written behaviour of a present-to-present change of `open` (a second `_onOpen`). `CustomModal.SetAttributeAsWritten` and `CustomModal.ReopenCounterexample` cover that behaviour.
- CustomModal.SetOpen: it is built on the corrected `CustomModal.SetAttribute`, so "a redundant set logs nothing" is the intended behaviour. As written, `el.open = true` on an element whose `open` is "true" logs `modal-opened` again (`CustomModal.ReopenCounterexample`).
- ReactModal.JustifyContent: it uses the intended lookup, so it does not promise the written result for `Object.prototype` names (`ReactModal.ConstructorCounterexample`).
- ReactModal.AlignItems: it uses the intended lookup, so for `Object.prototype` names such as "constructor" it gives "center" where the code gives the inherited member (`ReactModal.ConstructorCounterexample`).
- ReactModal.SafeContainerStyle: its defaults come from the intended `ReactModal.AlignItems` and `ReactModal.JustifyContent`. For `align` or `justify` naming an `Object.prototype` member, the code puts the inherited member (for "constructor", the Object constructor) into `alignItems` or `justifyContent`; the model puts "center" there.
- ReactModal.RerenderTracks: stated for a page whose own overflow is non-empty. On the default page (unset overflow) the overflow comes back as "auto"; `ReactModal.RerenderDefaultPage` and `ReactModal.HookKeepsPage` cover that page.
- ReactModal.SessionRestoresPage: stated for a page whose own overflow is non-empty. On the default page a session that takes the lock turns `Init("")` into `Init("auto")` (`ReactModal.SessionOnDefaultPage`).
- ReactModal.HookHoldsLockWhileOpen: the props `lockScroll`, `closeOnEsc` and `dismissOnBackdrop` are plain booleans. In the source, only `undefined` takes the default `true`; `null` or any other falsy value turns the feature off.
- ReactModal.NextOpen: the `...options` and `...props` spreads in `ModalSlot` can also replace `open` (and `onClose`). The model assumes they do not, so the Modal's `open` is always the hook's state.
- Focus.TabCycles: it assumes the keydown compares the list with the element that really has focus. The code compares with the document-level active element, so the cycle is not promised from a shadow-tree element such as the default close button (`Focus.ShadowFirstCounterexample`). It also assumes the browser's default Tab move follows the focusable list's order; document tab order with positive `tabindex` values is not modelled.
- CustomModal.FalseAttrSpellings: `toLowerCase` is modelled on ASCII letters only. That decides equality with "false" exactly, but does not model full Unicode lower-casing.
- Js.Truthy: numbers are reals plus `NaN`. BigInt and symbols are not modelled.

## Findings

| source | as written | input that shows it | evidently intended | confidence | as-written member | corrected member |
|---|---|---|---|---|---|---|
| src/custom-modal.js:206-218 | Any change of the `open` attribute's value runs `_onOpen` or `_onClose`, even from one present value to another. | Markup `open="true"`, then `el.open = true`. The setter writes `""`, so a second `modal-opened` fires, `_lastActive` is overwritten, and close restores focus to the wrong element. | One `modal-opened` per closed -> open edge, and no event for a redundant set. | medium, not executed | CustomModal.ReopenCounterexample | CustomModal.ReplayConsistent |
| src/custom-modal.js:322-328 | The list is compared with `getRootNode().activeElement`. That reports the host while focus is inside the shadow tree, so it never equals the default close button, which is first in the list. | Close button and one slotted element both focusable, close button focused, Shift+Tab. No wrap and no preventDefault, so focus leaves the dialog. | Shift+Tab from the first element wraps to the last. | medium, not executed | Focus.ShadowFirstCounterexample | Focus.KeydownTrapsFocus |
| src/react-modal.js:132-133 | `ALIGN_MAP[align] \|\| "center"` and `JUSTIFY_MAP[justify] \|\| "center"` read inherited `Object.prototype` members. | `align="constructor"` passes the Object constructor to `alignItems`, and `justify="constructor"` does the same to `justifyContent`. | Any value outside the table gives "center". | low (typed callers cannot pass it), not executed | ReactModal.ConstructorCounterexample | ReactModal.Lookup |

=== FILE: custom_modal.dfy ===
/** The `<custom-modal>` element as a state machine: its attributes, the
    element it will hand focus back to, and an append-only log of what it
    does that the page can observe (lifecycle events and `focus()` calls). */
module CustomModal {
  import opened Js
  import opened Focus

  datatype ModalEvent = ModalOpened | ModalClosed

  /** One observable action: a dispatched lifecycle event or a `focus()`
      call on an element. */
  datatype Effect = Emit(event: ModalEvent) | FocusCall(target: ElementId)

  /** The fixed nodes of one element: the host, the overlay and dialog of
      its shadow tree, and the shadow tree's other nodes that are not
      matches of the focusable selector (the overlay and dialog among
      them). */
  datatype Parts = Parts(host: ElementId, overlay: ElementId, dialog: ElementId, shadowNodes: set<ElementId>)

  /** The overlay and dialog are nodes of the shadow tree; the host is not,
      it lives in the document. */
  predicate WellFormed(p: Parts) {
    p.overlay in p.shadowNodes && p.dialog in p.shadowNodes && p.host !in p.shadowNodes
  }

  datatype Element = Element(
    parts: Parts,
    attrs: map<string, string>,
    lastActive: Option<ElementId>,
    log: seq<Effect>)

  /** For a well-formed element, focus on the overlay or the dialog is
      reported at document level as the host, whatever the candidates. */
  lemma ShadowPartsReportHost(p: Parts, shadow: seq<Candidate>)
    requires WellFormed(p)
    ensures DocumentActive(Some(p.dialog), p.shadowNodes + Ids(shadow), p.host) == Some(p.host)
    ensures DocumentActive(Some(p.overlay), p.shadowNodes + Ids(shadow), p.host) == Some(p.host)
    ensures DocumentActive(Some(p.host), p.shadowNodes + Ids(shadow), p.host) == Some(p.host)
  {
  }

  /** The attributes whose changes reach `attributeChangedCallback`. */
  const ObservedAttributes: set<string> := {"open", "size", "show-close", "close-on-backdrop", "aria-label"}

  /** A freshly constructed element, before any attribute is set. */
  function Create(parts: Parts): Element
    requires WellFormed(parts)
  {
    Element(parts, map[], None, [])
  }

  /** `getAttribute`. On an HTML element the DOM lower-cases (ASCII only)
      every attribute name it is given, so the map holds lower-case names
      and any spelling of a name reaches the same attribute. */
  function GetAttribute(m: Element, name: string): Option<string> {
    var n := ToLower(name);
    if n in m.attrs then Some(m.attrs[n]) else None
  }

  /** The `open` getter: the attribute is present, whatever its value. */
  predicate IsOpen(m: Element) {
    "open" in m.attrs
  }

  /** `_isFalseAttr`: present and lower-casing to "false". */
  predicate IsFalseAttr(m: Element, name: string)
    ensures IsFalseAttr(m, name) ==> GetAttribute(m, name).Some?
    ensures GetAttribute(m, name) == Some("false") ==> IsFalseAttr(m, name)
  {
    var a := GetAttribute(m, name);
    a.Some? && ToLower(a.value) == "false"
  }

  predicate CloseOnBackdrop(m: Element) {
    !IsFalseAttr(m, "close-on-backdrop")
  }

  predicate ShowClose(m: Element) {
    !IsFalseAttr(m, "show-close")
  }

  /** The 32 spellings of "false" with any mix of upper and lower case. */
  predicate SpellsFalse(v: string) {
    && |v| == 5
    && (v[0] == 'f' || v[0] == 'F')
    && (v[1] == 'a' || v[1] == 'A')
    && (v[2] == 'l' || v[2] == 'L')
    && (v[3] == 's' || v[3] == 'S')
    && (v[4] == 'e' || v[4] == 'E')
  }

  /** A boolean-ish attribute reads false exactly when it is present and
      spells "false" in any case; absent, empty or any other value reads
      true. */
  lemma FalseAttrSpellings(m: Element, name: string)
    ensures IsFalseAttr(m, name) <==> ToLower(name) in m.attrs && SpellsFalse(m.attrs[ToLower(name)])
  {
  }

  /** The focus call `_onClose` makes: the recorded element, if any. */
  function RestoreFocus(lastActive: Option<ElementId>): seq<Effect> {
    match lastActive
    case None => []
    case Some(e) => [FocusCall(e)]
  }

  /** `_onOpen`: remember what had focus and dispatch `modal-opened`. The
      deferred initial focus is not part of the log. */
  function OnOpen(m: Element, docActive: Option<ElementId>): (r: Element)
    ensures r.lastActive == docActive
    ensures Events(r.log) == Events(m.log) + [ModalOpened]
    ensures r.parts == m.parts && r.attrs == m.attrs
  {
    EventsOfFocus(m.log, None, ModalOpened);
    m.(lastActive := docActive, log := m.log + [Emit(ModalOpened)])
  }

  /** `_onClose`: dispatch `modal-closed`, then focus the remembered
      element. */
  function OnClose(m: Element): (r: Element)
    ensures Events(r.log) == Events(m.log) + [ModalClosed]
    ensures |r.log| == |m.log| + 1 + |RestoreFocus(m.lastActive)|
    ensures r.log[..|m.log|] == m.log && r.log[|m.log| + 1..] == RestoreFocus(m.lastActive)
    ensures r.parts == m.parts && r.attrs == m.attrs && r.lastActive == m.lastActive
  {
    EventsOfFocus(m.log, m.lastActive, ModalClosed);
    m.(log := m.log + [Emit(ModalClosed)] + RestoreFocus(m.lastActive))
  }

  /** `attributeChangedCallback` as written: any change of the `open`
      attribute's value runs `_onOpen` or `_onClose` by presence, even a
      change from one present value to another. `m` already carries the
      new attributes. */
  function AttributeChangedAsWritten(m: Element, name: string, oldValue: Option<string>, newValue: Option<string>,
                                     docActive: Option<ElementId>): (r: Element)
    ensures oldValue == newValue || name != "open" ==> r == m
    ensures oldValue != newValue && name == "open" ==> r == if IsOpen(m) then OnOpen(m, docActive) else OnClose(m)
  {
    if oldValue == newValue then m
    else if name == "open" then (if IsOpen(m) then OnOpen(m, docActive) else OnClose(m))
    else m
  }

  /** `attributeChangedCallback` as intended: only an appearance or a
      disappearance of the `open` attribute is an open/close edge. */
  function AttributeChanged(m: Element, name: string, oldValue: Option<string>, newValue: Option<string>,
                            docActive: Option<ElementId>): Element
  {
    if oldValue == newValue then m
    else if name == "open" && oldValue.Some? != newValue.Some? then (if IsOpen(m) then OnOpen(m, docActive) else OnClose(m))
    else m
  }

  /** The two callbacks differ only when `open` changes value while staying
      present. */
  lemma CallbacksAgreeOnEdges(m: Element, name: string, oldValue: Option<string>, newValue: Option<string>,
                              docActive: Option<ElementId>)
    ensures name != "open" || oldValue.Some? != newValue.Some? || oldValue == newValue ==>
      AttributeChangedAsWritten(m, name, oldValue, newValue, docActive) == AttributeChanged(m, name, oldValue, newValue, docActive)
    ensures name == "open" && oldValue.Some? && newValue.Some? && oldValue != newValue && IsOpen(m) ==>
      AttributeChangedAsWritten(m, name, oldValue, newValue, docActive) == OnOpen(m, docActive) &&
      AttributeChanged(m, name, oldValue, newValue, docActive) == m
  {
  }

  /** `setAttribute` with the callback as written. */
  function SetAttributeAsWritten(m: Element, name: string, value: string, docActive: Option<ElementId>): Element {
    var n := ToLower(name);
    var oldValue := GetAttribute(m, n);
    var m1 := m.(attrs := m.attrs[n := value]);
    if n in ObservedAttributes then AttributeChangedAsWritten(m1, n, oldValue, Some(value), docActive) else m1
  }

  /** `setAttribute` with the intended callback: store the value under the
      lower-cased name, then run the callback for an observed name.
      `docActive` is `document.activeElement` at the call. */
  function SetAttribute(m: Element, name: string, value: string, docActive: Option<ElementId>): (r: Element)
    ensures r.parts == m.parts
    ensures r.attrs == m.attrs[ToLower(name) := value]
    ensures GetAttribute(r, name) == Some(value)
    ensures ToLower(name) != "open" || IsOpen(m) ==> r.log == m.log && r.lastActive == m.lastActive
    ensures ToLower(name) == "open" && !IsOpen(m) ==> r.log == m.log + [Emit(ModalOpened)] && r.lastActive == docActive
  {
    var n := ToLower(name);
    ToLowerIdempotent(name);
    var oldValue := GetAttribute(m, n);
    var m1 := m.(attrs := m.attrs[n := value]);
    if n in ObservedAttributes then AttributeChanged(m1, n, oldValue, Some(value), docActive) else m1
  }

  /** `removeAttribute`: nothing happens for an absent attribute; otherwise
      drop it and run the callback for an observed name. */
  function RemoveAttribute(m: Element, name: string): (r: Element)
    ensures r.parts == m.parts
    ensures r.attrs == m.attrs - {ToLower(name)}
    ensures GetAttribute(r, name) == None
    ensures r.lastActive == m.lastActive
    ensures ToLower(name) != "open" || !IsOpen(m) ==> r.log == m.log
    ensures ToLower(name) == "open" && IsOpen(m) ==> r.log == m.log + [Emit(ModalClosed)] + RestoreFocus(m.lastActive)
  {
    var n := ToLower(name);
    ToLowerIdempotent(name);
    if n !in m.attrs then m
    else
      var oldValue := GetAttribute(m, n);
      var m1 := m.(attrs := m.attrs - {n});
      if n in ObservedAttributes then AttributeChanged(m1, n, oldValue, None, None) else m1
  }

  /** Attribute names are case-insensitive: any spelling of a name sets and
      removes the same attribute, with the same callbacks. */
  lemma AttributeNamesFold(m: Element, name: string, value: string, docActive: Option<ElementId>)
    ensures SetAttribute(m, name, value, docActive) == SetAttribute(m, ToLower(name), value, docActive)
    ensures RemoveAttribute(m, name) == RemoveAttribute(m, ToLower(name))
    ensures GetAttribute(m, name) == GetAttribute(m, ToLower(name))
  {
    ToLowerIdempotent(name);
  }

  function SetOpenAsWritten(m: Element, v: Value, docActive: Option<ElementId>): Element {
    if Truthy(v) then SetAttributeAsWritten(m, "open", "", docActive) else RemoveAttribute(m, "open")
  }

  /** The `open` setter: a truthy value sets the attribute, any other
      removes it. Reading `open` back gives the truthiness; a setting that
      does not change the state logs nothing; the edges log exactly one
      event each. */
  function SetOpen(m: Element, v: Value, docActive: Option<ElementId>): (r: Element)
    ensures IsOpen(r) == Truthy(v)
    ensures IsOpen(m) == Truthy(v) ==> r.log == m.log && r.lastActive == m.lastActive
    ensures !IsOpen(m) && Truthy(v) ==> r.log == m.log + [Emit(ModalOpened)] && r.lastActive == docActive
    ensures IsOpen(m) && !Truthy(v) ==> r.log == m.log + [Emit(ModalClosed)] + RestoreFocus(m.lastActive)
    ensures forall n :: ToLower(n) != "open" ==> GetAttribute(r, n) == GetAttribute(m, n)
  {
    if Truthy(v) then SetAttribute(m, "open", "", docActive) else RemoveAttribute(m, "open")
  }

  function OpenModal(m: Element, docActive: Option<ElementId>): Element {
    SetOpen(m, Bool(true), docActive)
  }

  function CloseModal(m: Element): Element {
    SetOpen(m, Bool(false), None)
  }

  /** The two flag attributes are spelled in lower case already. */
  lemma FlagNamesLower(name: string)
    requires name == "close-on-backdrop" || name == "show-close"
    ensures ToLower(name) == name && name in ObservedAttributes && name != "open"
  {
    assert forall i :: 0 <= i < |name| ==> !('A' <= name[i] <= 'Z');
  }

  /** The `closeOnBackdrop` and `showClose` setters: exactly `false` writes
      the attribute "false"; any other value removes it. Reading the
      property back gives `value !== false`, and nothing else changes. */
  function SetFlag(m: Element, name: string, v: Value): (r: Element)
    requires name == "close-on-backdrop" || name == "show-close"
    ensures IsFalseAttr(r, name) <==> v == Bool(false)
    ensures forall n :: ToLower(n) != name ==> GetAttribute(r, n) == GetAttribute(m, n)
    ensures r.log == m.log && r.lastActive == m.lastActive && r.parts == m.parts
  {
    FlagNamesLower(name);
    if v == Bool(false) then
      var r := SetAttribute(m, name, "false", None);
      assert ToLower("false") == "false";
      r
    else RemoveAttribute(m, name)
  }

  function SetCloseOnBackdrop(m: Element, v: Value): (r: Element)
    ensures CloseOnBackdrop(r) == (v != Bool(false))
    ensures ShowClose(r) == ShowClose(m) && IsOpen(r) == IsOpen(m) && r.log == m.log
  {
    var r := SetFlag(m, "close-on-backdrop", v);
    assert GetAttribute(r, "show-close") == GetAttribute(m, "show-close");
    assert GetAttribute(r, "open") == GetAttribute(m, "open");
    r
  }

  function SetShowClose(m: Element, v: Value): (r: Element)
    ensures ShowClose(r) == (v != Bool(false))
    ensures CloseOnBackdrop(r) == CloseOnBackdrop(m) && IsOpen(r) == IsOpen(m) && r.log == m.log
  {
    var r := SetFlag(m, "show-close", v);
    assert GetAttribute(r, "close-on-backdrop") == GetAttribute(m, "close-on-backdrop");
    assert GetAttribute(r, "open") == GetAttribute(m, "open");
    r
  }

  /** `_handleOverlayClick`: closes only for a click whose target is the
      overlay itself, and only while closeOnBackdrop holds. */
  function OverlayClick(m: Element, target: ElementId): (r: Element)
    ensures target != m.parts.overlay ==> r == m
    ensures IsOpen(r) <==> IsOpen(m) && !(target == m.parts.overlay && CloseOnBackdrop(m))
  {
    if target != m.parts.overlay then m
    else if CloseOnBackdrop(m) then CloseModal(m)
    else m
  }

  /** A backdrop click that closes logs exactly one `modal-closed` and the
      focus restore, and a second click on the same target changes nothing
      more: the click is idempotent. */
  lemma OverlayClickOnce(m: Element, target: ElementId)
    ensures IsOpen(m) && target == m.parts.overlay && CloseOnBackdrop(m) ==>
      OverlayClick(m, target).log == m.log + [Emit(ModalClosed)] + RestoreFocus(m.lastActive)
    ensures OverlayClick(OverlayClick(m, target), target) == OverlayClick(m, target)
  {
    var r := OverlayClick(m, target);
    if target == m.parts.overlay && CloseOnBackdrop(m) {
      assert GetAttribute(r, "close-on-backdrop") == GetAttribute(m, "close-on-backdrop");
      assert !IsOpen(r);
    }
  }

  /** `_handleCloseClick`; `matched` stands for whether the target lies in a
      button, a `[data-close]` element or the close slot. */
  function CloseClick(m: Element, matched: bool): (r: Element)
    ensures !matched ==> r == m
    ensures matched ==> !IsOpen(r)
  {
    if matched then CloseModal(m) else m
  }

  datatype Handled = Handled(element: Element, preventDefault: bool)

  /** `_handleKeydown` on the element, as written: decide with the
      focusable list of the moment and the document-level active element
      (`deep` is the node that really has focus), then carry the move out. */
  function HandleKey(m: Element, key: string, shift: bool, shadow: seq<Candidate>, light: seq<Candidate>,
                     deep: Option<ElementId>): (r: Handled)
    requires WellFormed(m.parts)
    requires Separated(shadow, light, m.parts.shadowNodes, m.parts.host)
    ensures r.element.parts == m.parts
    ensures !IsOpen(m) ==> r == Handled(m, false)
    ensures IsOpen(m) && key == "Escape" ==>
      r.preventDefault && !IsOpen(r.element) &&
      r.element.log == m.log + [Emit(ModalClosed)] + RestoreFocus(m.lastActive)
    ensures key != "Escape" ==> r.element.attrs == m.attrs && r.element.lastActive == m.lastActive
    ensures key != "Escape" && key != "Tab" ==> r == Handled(m, false)
    ensures IsOpen(m) && key == "Tab" && FocusableElements(shadow, light) == [] ==>
      r == Handled(m.(log := m.log + [FocusCall(m.parts.dialog)]), true)
    ensures IsOpen(m) && key == "Tab" && FocusableElements(shadow, light) != [] ==>
      var f := FocusableElements(shadow, light);
      var active := DocumentActive(deep, m.parts.shadowNodes + Ids(shadow), m.parts.host);
      r == if shift && active == Some(f[0]) then Handled(m.(log := m.log + [FocusCall(Last(f))]), true)
           else if !shift && active == Some(Last(f)) then Handled(m.(log := m.log + [FocusCall(f[0])]), true)
           else Handled(m, false)
  {
    var o := KeydownAsWritten(IsOpen(m), key, shift, shadow, light, deep, m.parts.shadowNodes, m.parts.host);
    var next := match o.move
      case Stay => m
      case Close => CloseModal(m)
      case FocusOn(t) => m.(log := m.log + [FocusCall(t)])
      case FocusDialog => m.(log := m.log + [FocusCall(m.parts.dialog)]);
    Handled(next, o.preventDefault)
  }

  // ---------------------------------------------------------------------
  // Traces and the lifecycle invariant
  // ---------------------------------------------------------------------

  datatype Op =
    | SetAttr(name: string, value: string, active: Option<ElementId>)
    | RemoveAttr(name: string)
    | SetOpenProp(v: Value, active: Option<ElementId>)
    | SetCloseOnBackdropProp(v: Value)
    | SetShowCloseProp(v: Value)
    | KeyDown(key: string, shift: bool, shadow: seq<Candidate>, light: seq<Candidate>, deep: Option<ElementId>)
    | OverlayClicked(target: ElementId)
    | CloseClicked(matched: bool)

  /** A keydown's candidate lists come from this element's own trees. */
  predicate Fits(p: Parts, op: Op) {
    op.KeyDown? ==> Separated(op.shadow, op.light, p.shadowNodes, p.host)
  }

  function Apply(m: Element, op: Op): (r: Element)
    requires WellFormed(m.parts)
    requires Fits(m.parts, op)
    ensures r.parts == m.parts
  {
    match op
    case SetAttr(name, value, active) => SetAttribute(m, name, value, active)
    case RemoveAttr(name) => RemoveAttribute(m, name)
    case SetOpenProp(v, active) => SetOpen(m, v, active)
    case SetCloseOnBackdropProp(v) => SetCloseOnBackdrop(m, v)
    case SetShowCloseProp(v) => SetShowClose(m, v)
    case KeyDown(key, shift, shadow, light, deep) => HandleKey(m, key, shift, shadow, light, deep).element
    case OverlayClicked(target) => OverlayClick(m, target)
    case CloseClicked(matched) => CloseClick(m, matched)
  }

  function Replay(m: Element, ops: seq<Op>): Element
    requires WellFormed(m.parts)
    requires forall i | 0 <= i < |ops| :: Fits(m.parts, ops[i])
    decreases |ops|
  {
    if ops == [] then m else Replay(Apply(m, ops[0]), ops[1..])
  }

  /** The lifecycle events in a log, in order. */
  function Events(log: seq<Effect>): seq<ModalEvent>
    decreases |log|
  {
    if log == [] then []
    else (if log[0].Emit? then [log[0].event] else []) + Events(log[1..])
  }

  lemma {:induction false} EventsAppend(a: seq<Effect>, b: seq<Effect>)
    ensures Events(a + b) == Events(a) + Events(b)
    decreases |a|
  {
    if a == [] {
      assert a + b == b;
    } else {
      assert (a + b)[0] == a[0];
      assert (a + b)[1..] == a[1..] + b;
      EventsAppend(a[1..], b);
      var head := if a[0].Emit? then [a[0].event] else [];
      assert head + (Events(a[1..]) + Events(b)) == (head + Events(a[1..])) + Events(b);
    }
  }

  /** Opened and closed strictly alternate, starting with opened. */
  ghost predicate Alternating(evs: seq<ModalEvent>) {
    forall i :: 0 <= i < |evs| ==> evs[i] == if i % 2 == 0 then ModalOpened else ModalClosed
  }

  /** The events told so far agree with the state: they alternate, and
      there is one more opened than closed exactly while the element is
      open. */
  ghost predicate LifecycleConsistent(m: Element) {
    && Alternating(Events(m.log))
    && (IsOpen(m) <==> |Events(m.log)| % 2 == 1)
  }

  lemma EventsOfFocus(log: seq<Effect>, lastActive: Option<ElementId>, e: ModalEvent)
    ensures Events(log + [Emit(e)] + RestoreFocus(lastActive)) == Events(log) + [e]
    ensures Events(log + [Emit(e)]) == Events(log) + [e]
  {
    EventsAppend(log, [Emit(e)]);
    EventsAppend(log + [Emit(e)], RestoreFocus(lastActive));
    assert [Emit(e)][1..] == [];
    if lastActive.Some? {
      assert RestoreFocus(lastActive)[1..] == [];
    }
  }

  lemma EventsOfFocusCall(log: seq<Effect>, t: ElementId)
    ensures Events(log + [FocusCall(t)]) == Events(log)
  {
    EventsAppend(log, [FocusCall(t)]);
    assert [FocusCall(t)][1..] == [];
  }

  /** The three kinds of step the invariant has to survive: an opening
      edge, a closing edge, and a step that neither changes the state nor
      tells an event. */
  lemma OpenEdgeConsistent(m: Element, r: Element)
    requires LifecycleConsistent(m) && !IsOpen(m)
    requires IsOpen(r) && r.log == m.log + [Emit(ModalOpened)]
    ensures LifecycleConsistent(r)
  {
    EventsOfFocus(m.log, None, ModalOpened);
  }

  lemma CloseEdgeConsistent(m: Element, r: Element)
    requires LifecycleConsistent(m) && IsOpen(m)
    requires !IsOpen(r) && r.log == m.log + [Emit(ModalClosed)] + RestoreFocus(m.lastActive)
    ensures LifecycleConsistent(r)
  {
    EventsOfFocus(m.log, m.lastActive, ModalClosed);
  }

  lemma QuietConsistent(m: Element, r: Element)
    requires LifecycleConsistent(m)
    requires IsOpen(r) == IsOpen(m) && Events(r.log) == Events(m.log)
    ensures LifecycleConsistent(r)
  {
  }

  /** Each operation keeps the events consistent with the state. */
  lemma ApplyConsistent(m: Element, op: Op)
    requires WellFormed(m.parts)
    requires Fits(m.parts, op)
    requires LifecycleConsistent(m)
    ensures LifecycleConsistent(Apply(m, op))
  {
    var r := Apply(m, op);
    match op {
      case SetAttr(name, value, active) =>
        if ToLower(name) == "open" && !IsOpen(m) {
          OpenEdgeConsistent(m, r);
        } else {
          QuietConsistent(m, r);
        }
      case RemoveAttr(name) =>
        if ToLower(name) == "open" && IsOpen(m) {
          CloseEdgeConsistent(m, r);
        } else {
          QuietConsistent(m, r);
        }
      case SetOpenProp(v, active) =>
        if IsOpen(m) == Truthy(v) {
          QuietConsistent(m, r);
        } else if Truthy(v) {
          OpenEdgeConsistent(m, r);
        } else {
          CloseEdgeConsistent(m, r);
        }
      case SetCloseOnBackdropProp(_) =>
        QuietConsistent(m, r);
      case SetShowCloseProp(_) =>
        QuietConsistent(m, r);
      case KeyDown(key, shift, shadow, light, deep) =>
        var o := KeydownAsWritten(IsOpen(m), key, shift, shadow, light, deep, m.parts.shadowNodes, m.parts.host);
        if o.move == Close {
          CloseEdgeConsistent(m, r);
        } else {
          if o.move.FocusOn? {
            EventsOfFocusCall(m.log, o.move.target);
          } else if o.move == FocusDialog {
            EventsOfFocusCall(m.log, m.parts.dialog);
          }
          QuietConsistent(m, r);
        }
      case OverlayClicked(target) =>
        if IsOpen(m) && target == m.parts.overlay && CloseOnBackdrop(m) {
          CloseEdgeConsistent(m, r);
        } else {
          QuietConsistent(m, r);
        }
      case CloseClicked(matched) =>
        if IsOpen(m) && matched {
          CloseEdgeConsistent(m, r);
        } else {
          QuietConsistent(m, r);
        }
    }
  }

  /** Over any sequence of attribute changes, property sets, keys and
      clicks, `modal-opened` and `modal-closed` alternate and match the
      state: exactly one of each per edge, none for redundant changes. */
  lemma {:induction false} ReplayConsistent(m: Element, ops: seq<Op>)
    requires WellFormed(m.parts)
    requires forall i | 0 <= i < |ops| :: Fits(m.parts, ops[i])
    requires LifecycleConsistent(m)
    ensures LifecycleConsistent(Replay(m, ops))
    decreases |ops|
  {
    if ops != [] {
      ApplyConsistent(m, ops[0]);
      ReplayConsistent(Apply(m, ops[0]), ops[1..]);
    }
  }

  /** Markup says `open="true"` while element 7 has focus; later the page
      runs `el.open = true` while focus (9) is already inside the modal, and
      then closes it. As written, a second `modal-opened` is dispatched and
      focus goes back to 9; as intended, nothing is dispatched by the
      redundant set and focus goes back to 7. */
  lemma ReopenCounterexample(parts: Parts)
    requires WellFormed(parts)
    ensures var m1 := SetAttributeAsWritten(Create(parts), "open", "true", Some(7));
      var m2 := SetOpenAsWritten(m1, Bool(true), Some(9));
      var m3 := RemoveAttribute(m2, "open");
      && m2.log == [Emit(ModalOpened), Emit(ModalOpened)]
      && !LifecycleConsistent(m2)
      && m3.log == [Emit(ModalOpened), Emit(ModalOpened), Emit(ModalClosed), FocusCall(9)]
    ensures var m1 := SetAttribute(Create(parts), "open", "true", Some(7));
      var m2 := SetOpen(m1, Bool(true), Some(9));
      var m3 := RemoveAttribute(m2, "open");
      && m2.log == [Emit(ModalOpened)]
      && m3.log == [Emit(ModalOpened), Emit(ModalClosed), FocusCall(7)]
  {
    var m1 := SetAttributeAsWritten(Create(parts), "open", "true", Some(7));
    var m2 := SetOpenAsWritten(m1, Bool(true), Some(9));
    assert [Emit(ModalOpened)] + [Emit(ModalOpened)] == [Emit(ModalOpened), Emit(ModalOpened)];
    EventsOfFocus([Emit(ModalOpened)], None, ModalOpened);
    EventsOfFocus([], None, ModalOpened);
    assert Events(m2.log)[1] == ModalOpened;
  }
}

=== FILE: focus.dfy ===
/** Keyboard focus inside the custom element: which matches of the
    focusable selector count, what a keydown does, and the cyclic Tab trap. */
module Focus {
  import opened Js

  /** Elements are abstract identities. */
  type ElementId = nat

  /** One match of the focusable selector list, with the facts the filter
      reads: a `disabled` attribute, the `aria-hidden` attribute, and
      whether the element has a layout box (`offsetParent` or client
      rects). */
  datatype Candidate = Candidate(
    id: ElementId,
    disabled: bool,
    ariaHidden: Option<string>,
    hasOffsetParent: bool,
    clientRects: nat)

  /** The filter of `_getFocusableElements`. */
  predicate Focusable(c: Candidate) {
    && !c.disabled
    && c.ariaHidden != Some("true")
    && (c.hasOffsetParent || c.clientRects > 0)
  }

  /** The identities of the candidates that pass the filter, in order. */
  function FilterFocusable(cs: seq<Candidate>): (r: seq<ElementId>)
    ensures |r| <= |cs|
    ensures forall i :: 0 <= i < |cs| && Focusable(cs[i]) ==> cs[i].id in r
    ensures forall e :: e in r ==> exists i :: 0 <= i < |cs| && Focusable(cs[i]) && cs[i].id == e
    decreases |cs|
  {
    if cs == [] then []
    else
      var rest := FilterFocusable(cs[1..]);
      assert forall i :: 1 <= i < |cs| ==> cs[i] == cs[1..][i - 1];
      if Focusable(cs[0]) then [cs[0].id] + rest else rest
  }

  /** Filtering a concatenation filters each part and keeps them in order. */
  lemma {:induction false} FilterAppend(a: seq<Candidate>, b: seq<Candidate>)
    ensures FilterFocusable(a + b) == FilterFocusable(a) + FilterFocusable(b)
    decreases |a|
  {
    if a != [] {
      assert (a + b)[0] == a[0];
      assert (a + b)[1..] == a[1..] + b;
      FilterAppend(a[1..], b);
      var head := if Focusable(a[0]) then [a[0].id] else [];
      assert FilterFocusable(a + b) == head + FilterFocusable(a[1..] + b);
      assert FilterFocusable(a) == head + FilterFocusable(a[1..]);
      assert head + (FilterFocusable(a[1..]) + FilterFocusable(b)) == (head + FilterFocusable(a[1..])) + FilterFocusable(b);
    } else {
      assert a + b == b;
    }
  }

  /** A single candidate is kept exactly when it passes the filter. Together
      with FilterAppend this pins the filter down: order preserving, and
      dropping exactly the disabled, aria-hidden and box-less matches. */
  lemma FilterSingle(c: Candidate)
    ensures FilterFocusable([c]) == if Focusable(c) then [c.id] else []
  {
  }

  /** `_getFocusableElements`: the shadow-tree matches and then the
      light-tree matches, each in document order, filtered. */
  function FocusableElements(shadow: seq<Candidate>, light: seq<Candidate>): (r: seq<ElementId>)
    ensures r == FilterFocusable(shadow) + FilterFocusable(light)
  {
    FilterAppend(shadow, light);
    FilterFocusable(shadow + light)
  }

  /** The identities of a candidate list. */
  function Ids(cs: seq<Candidate>): set<ElementId> {
    set c | c in cs :: c.id
  }

  /** What a keydown asks for, besides the `preventDefault` decision. */
  datatype Move = Stay | Close | FocusOn(target: ElementId) | FocusDialog

  datatype KeyOutcome = KeyOutcome(preventDefault: bool, move: Move)

  function Last(f: seq<ElementId>): ElementId
    requires |f| > 0
  {
    f[|f| - 1]
  }

  /** `_handleKeydown` as a decision on the open state, the key, Shift, the
      current focusable list and the active element it compares against. */
  function HandleKeydown(open: bool, key: string, shift: bool, focusable: seq<ElementId>, active: Option<ElementId>): (r: KeyOutcome)
    ensures !open ==> r == KeyOutcome(false, Stay)
    ensures r.move == Close <==> open && key == "Escape"
    ensures open && key != "Escape" && key != "Tab" ==> r == KeyOutcome(false, Stay)
    ensures r.preventDefault <==> r.move != Stay
    ensures r.move.FocusOn? ==> r.move.target in focusable
    ensures r.move == FocusDialog <==> open && key == "Tab" && focusable == []
  {
    if !open then KeyOutcome(false, Stay)
    else if key == "Escape" then KeyOutcome(true, Close)
    else if key != "Tab" then KeyOutcome(false, Stay)
    else if |focusable| == 0 then KeyOutcome(true, FocusDialog)
    else
      var first := focusable[0];
      var last := Last(focusable);
      if shift && active == Some(first) then KeyOutcome(true, FocusOn(last))
      else if !shift && active == Some(last) then KeyOutcome(true, FocusOn(first))
      else KeyOutcome(false, Stay)
  }

  /** The three Tab cases on a non-empty list: wrap backward from the first,
      wrap forward from the last, and otherwise let the browser move. */
  lemma TabCases(f: seq<ElementId>, shift: bool, active: Option<ElementId>)
    requires |f| > 0
    ensures shift && active == Some(f[0]) ==> HandleKeydown(true, "Tab", shift, f, active) == KeyOutcome(true, FocusOn(Last(f)))
    ensures !shift && active == Some(Last(f)) ==> HandleKeydown(true, "Tab", shift, f, active) == KeyOutcome(true, FocusOn(f[0]))
    ensures (shift && active != Some(f[0])) || (!shift && active != Some(Last(f))) ==>
      HandleKeydown(true, "Tab", shift, f, active) == KeyOutcome(false, Stay)
  {
  }

  /** The cyclic successor and predecessor of index `i` among `n`. */
  function Next(i: nat, n: nat): nat
    requires i < n
  {
    if i + 1 == n then 0 else i + 1
  }

  function Prev(i: nat, n: nat): nat
    requires i < n
  {
    if i == 0 then n - 1 else i - 1
  }

  ghost predicate Distinct(f: seq<ElementId>) {
    forall i, j :: 0 <= i < j < |f| ==> f[i] != f[j]
  }

  /** Where focus is after Tab from `f[i]`: the handler's target if it
      prevented default, otherwise the browser's sequential neighbour, which
      is `None` when that neighbour lies outside the list. */
  function Landing(f: seq<ElementId>, i: nat, shift: bool, r: KeyOutcome): Option<ElementId>
    requires i < |f|
  {
    if r.move.FocusOn? then Some(r.move.target)
    else if r.preventDefault then None
    else if shift then (if i > 0 then Some(f[i - 1]) else None)
    else (if i + 1 < |f| then Some(f[i + 1]) else None)
  }

  /** The trap is cyclic: from any element of a list without repeats, Tab
      lands on the next element and Shift+Tab on the previous one, both
      cyclically, so focus never leaves the list. */
  lemma TabCycles(f: seq<ElementId>, i: nat, shift: bool)
    requires Distinct(f)
    requires i < |f|
    ensures var r := HandleKeydown(true, "Tab", shift, f, Some(f[i]));
      Landing(f, i, shift, r) == Some(f[if shift then Prev(i, |f|) else Next(i, |f|)])
  {
  }

  /** What `getRootNode().activeElement` reports for a modal placed in the
      document: focus anywhere inside its shadow tree (`shadowTree` holds
      every node of it) is retargeted to the host. */
  function DocumentActive(deep: Option<ElementId>, shadowTree: set<ElementId>, host: ElementId): Option<ElementId> {
    if deep.Some? && deep.value in shadowTree then Some(host) else deep
  }

  /** The host lives in the document, not in its own shadow tree, and the
      light-tree matches are its descendants: none of them is the host or a
      node of the shadow tree. */
  predicate Separated(shadow: seq<Candidate>, light: seq<Candidate>, shadowNodes: set<ElementId>, host: ElementId) {
    && host !in Ids(shadow)
    && forall c | c in light :: c.id !in shadowNodes && c.id !in Ids(shadow) && c.id != host
  }

  /** The host is never in the focusable list. */
  lemma HostNotFocusable(shadow: seq<Candidate>, light: seq<Candidate>, shadowNodes: set<ElementId>, host: ElementId)
    requires Separated(shadow, light, shadowNodes, host)
    ensures host !in FocusableElements(shadow, light)
  {
  }

  /** The keydown as written: the list is compared against the
      document-level active element. `shadowNodes` are the shadow-tree nodes
      besides the selector's matches (the overlay, the dialog, ...); the
      matches in `shadow` belong to the tree as well. Focus on a node of the
      shadow tree is compared as the host, so only a light-tree element can
      be matched and wrapped from. */
  function KeydownAsWritten(open: bool, key: string, shift: bool, shadow: seq<Candidate>, light: seq<Candidate>,
                            deep: Option<ElementId>, shadowNodes: set<ElementId>, host: ElementId): (r: KeyOutcome)
    requires Separated(shadow, light, shadowNodes, host)
    ensures !open ==> r == KeyOutcome(false, Stay)
    ensures r.move == Close <==> open && key == "Escape"
    ensures r.move == FocusDialog <==> open && key == "Tab" && FocusableElements(shadow, light) == []
    ensures r.move.FocusOn? ==> r.move.target in FocusableElements(shadow, light)
    ensures r.move.FocusOn? ==> deep.Some? && deep.value !in shadowNodes + Ids(shadow)
  {
    HostNotFocusable(shadow, light, shadowNodes, host);
    HandleKeydown(open, key, shift, FocusableElements(shadow, light), DocumentActive(deep, shadowNodes + Ids(shadow), host))
  }

  /** The keydown as intended: the list is compared against the element
      that really has focus, inside or outside the shadow tree. */
  function Keydown(open: bool, key: string, shift: bool, shadow: seq<Candidate>, light: seq<Candidate>,
                   deep: Option<ElementId>): (r: KeyOutcome)
    ensures r.move.FocusOn? ==> r.move.target in FocusableElements(shadow, light)
    ensures !open ==> r == KeyOutcome(false, Stay)
  {
    HandleKeydown(open, key, shift, FocusableElements(shadow, light), deep)
  }

  /** With the intended comparison the trap is cyclic over the whole list,
      shadow-tree elements included. */
  lemma KeydownTrapsFocus(shift: bool, shadow: seq<Candidate>, light: seq<Candidate>, i: nat)
    requires Distinct(FocusableElements(shadow, light))
    requires i < |FocusableElements(shadow, light)|
    ensures var f := FocusableElements(shadow, light);
      var r := Keydown(true, "Tab", shift, shadow, light, Some(f[i]));
      Landing(f, i, shift, r) == Some(f[if shift then Prev(i, |f|) else Next(i, |f|)])
  {
  }

  /** The as-written keydown agrees with the intended one whenever focus is
      outside the shadow tree, so the trap works for slotted content; it
      can only differ when focus sits on a shadow-tree node. */
  lemma KeydownLightFocus(open: bool, key: string, shift: bool, shadow: seq<Candidate>, light: seq<Candidate>,
                          deep: Option<ElementId>, shadowNodes: set<ElementId>, host: ElementId)
    requires Separated(shadow, light, shadowNodes, host)
    requires deep.None? || deep.value !in shadowNodes + Ids(shadow)
    ensures KeydownAsWritten(open, key, shift, shadow, light, deep, shadowNodes, host)
         == Keydown(open, key, shift, shadow, light, deep)
  {
  }

  /** The default close button lives in the shadow tree and comes first in
      the list. With focus on it, Shift+Tab as written is not trapped (the
      host is compared with the button, so the browser moves focus out of
      the dialog), while the intended keydown wraps to the last element. */
  lemma ShadowFirstCounterexample()
    ensures var closeButton := Candidate(1, false, None, true, 1);
      var slotted := Candidate(2, false, None, true, 1);
      var f := FocusableElements([closeButton], [slotted]);
      && f == [1, 2]
      && KeydownAsWritten(true, "Tab", true, [closeButton], [slotted], Some(1), {3, 4}, 0) == KeyOutcome(false, Stay)
      && Landing(f, 0, true, KeydownAsWritten(true, "Tab", true, [closeButton], [slotted], Some(1), {3, 4}, 0)) == None
      && Keydown(true, "Tab", true, [closeButton], [slotted], Some(1)) == KeyOutcome(true, FocusOn(2))
  {
    var closeButton := Candidate(1, false, None, true, 1);
    assert Ids([closeButton]) == {1} by {
      assert closeButton in [closeButton];
    }
  }

  /** The deferred initial focus: the first focusable element, else the
      dialog itself. Its timing is not modelled; this is only the choice. */
  function InitialFocus(focusable: seq<ElementId>): (m: Move)
    ensures m.FocusOn? || m == FocusDialog
    ensures m.FocusOn? <==> focusable != []
    ensures m.FocusOn? ==> m.target in focusable
  {
    if |focusable| > 0 then FocusOn(focusable[0]) else FocusDialog
  }
}

=== FILE: js.dfy ===
/** The pieces of JavaScript semantics the modal code leans on: optional
    values, truthiness, the `||` default on strings and ASCII case folding. */
module Js {

  /** A value that may be absent: a missing attribute, a null
      `activeElement`, an unset `dataset` entry. */
  datatype Option<+T> = None | Some(value: T)

  /** A JavaScript value as far as a property setter or a prop can observe
      it. Numbers are reals; `NaN` stands apart because it is the one falsy
      number that is not zero. */
  datatype Value =
    | Undefined
    | Null
    | Bool(b: bool)
    | Number(n: real)
    | NaN
    | Str(s: string)
    | Object(id: nat)

  /** JavaScript's ToBoolean, as used by `if (value)`. */
  predicate Truthy(v: Value) {
    match v
    case Undefined => false
    case Null => false
    case NaN => false
    case Bool(b) => b
    case Number(n) => n != 0.0
    case Str(s) => s != ""
    case Object(_) => true
  }

  /** `s || fallback` for a string operand: only the empty string is falsy. */
  function StringOr(s: string, fallback: string): string {
    if s == "" then fallback else s
  }

  /** `o || fallback` for an operand that is a string or `undefined`. */
  function OptionOr(o: Option<string>, fallback: string): string {
    match o
    case None => fallback
    case Some(s) => StringOr(s, fallback)
  }

  /** Lower-cases the ASCII letters A-Z and leaves every other character. No
      other character lower-cases to one of the letters of "false", so this
      decides `s.toLowerCase() === "false"` exactly. */
  function LowerChar(c: char): char {
    if 'A' <= c <= 'Z' then (c as int + 32) as char else c
  }

  /** ASCII lower-casing of a whole string, as `toLowerCase` decides
      equality with lower-case ASCII and as the DOM normalises attribute
      names on HTML elements. */
  function ToLower(s: string): (r: string)
    ensures |r| == |s|
    ensures forall i :: 0 <= i < |s| ==> r[i] == LowerChar(s[i])
    ensures (forall i :: 0 <= i < |s| ==> !('A' <= s[i] <= 'Z')) ==> r == s
  {
    seq(|s|, i requires 0 <= i < |s| => LowerChar(s[i]))
  }

  /** Lower-casing twice is lower-casing once. */
  lemma ToLowerIdempotent(s: string)
    ensures ToLower(ToLower(s)) == ToLower(s)
  {
    var t := ToLower(s);
    assert forall i :: 0 <= i < |t| ==> !('A' <= t[i] <= 'Z');
  }
}

=== FILE: react_modal.dfy ===
/** The pure decisions of the React binding (`Modal` and `useModal`): the
    align/justify lookup, the style merge that pins critical properties,
    the gating of the scroll lock, Escape and backdrop on the props, the
    portal selector check, and the hook's open state driving all of them. */
module ReactModal {
  import opened Js
  import opened ScrollLock

  // ---------------------------------------------------------------------
  // Align / justify lookup
  // ---------------------------------------------------------------------

  const AlignMap: map<string, string> :=
    map["left" := "flex-start", "center" := "center", "right" := "flex-end"]

  const JustifyMap: map<string, string> :=
    map["top" := "flex-start", "center" := "center", "bottom" := "flex-end"]

  /** The property names every plain object literal inherits from
      `Object.prototype`. Reading one of them from ALIGN_MAP or JUSTIFY_MAP
      yields a function (or, for `__proto__`, an object), which is truthy. */
  const ObjectPrototypeKeys: set<string> := {
    "constructor", "hasOwnProperty", "isPrototypeOf", "propertyIsEnumerable",
    "toString", "toLocaleString", "valueOf", "__proto__",
    "__defineGetter__", "__defineSetter__", "__lookupGetter__", "__lookupSetter__"
  }

  /** What `MAP[key] || "center"` evaluates to: a string from the table (or
      the fallback), or a member inherited from the object prototype. */
  datatype Looked = Own(value: string) | Inherited(key: string)

  /** The lookup as the binding writes it, with JavaScript's property
      access walking the prototype chain. */
  function LookupAsWritten(table: map<string, string>, key: string): (r: Looked)
    ensures key in table && table[key] != "" ==> r == Own(table[key])
    ensures key !in table && key in ObjectPrototypeKeys ==> r.Inherited?
    ensures key !in table && key !in ObjectPrototypeKeys ==> r == Own("center")
  {
    if key in table then Own(StringOr(table[key], "center"))
    else if key in ObjectPrototypeKeys then Inherited(key)
    else Own("center")
  }

  /** The lookup as intended: own entries of the table, "center" otherwise. */
  function Lookup(table: map<string, string>, key: string): (r: string)
    ensures key in table && table[key] != "" ==> r == table[key]
    ensures key !in table ==> r == "center"
  {
    if key in table then StringOr(table[key], "center") else "center"
  }

  function AlignItemsAsWritten(align: string): Looked {
    LookupAsWritten(AlignMap, align)
  }

  function JustifyContentAsWritten(justify: string): Looked {
    LookupAsWritten(JustifyMap, justify)
  }

  /** `alignItems` of the container: "left" and "right" go to the ends of
      the cross axis, every other value centres. */
  function AlignItems(align: string): (r: string)
    ensures r == "flex-start" <==> align == "left"
    ensures r == "flex-end" <==> align == "right"
    ensures r == "center" <==> align != "left" && align != "right"
  {
    Lookup(AlignMap, align)
  }

  /** `justifyContent` of the container: "top" and "bottom" go to the ends
      of the main axis, every other value centres. */
  function JustifyContent(justify: string): (r: string)
    ensures r == "flex-start" <==> justify == "top"
    ensures r == "flex-end" <==> justify == "bottom"
    ensures r == "center" <==> justify != "top" && justify != "bottom"
  {
    Lookup(JustifyMap, justify)
  }

  /** The lookup as written agrees with the intended one except on the
      names inherited from the object prototype, where it does not fall
      back to "center". */
  lemma LookupAgreement(align: string, justify: string)
    ensures align !in ObjectPrototypeKeys ==> AlignItemsAsWritten(align) == Own(AlignItems(align))
    ensures align in ObjectPrototypeKeys ==> AlignItemsAsWritten(align).Inherited? && AlignItems(align) == "center"
    ensures justify !in ObjectPrototypeKeys ==> JustifyContentAsWritten(justify) == Own(JustifyContent(justify))
    ensures justify in ObjectPrototypeKeys ==> JustifyContentAsWritten(justify).Inherited? && JustifyContent(justify) == "center"
  {
  }

  /** Concretely: `align="constructor"` hands the Object constructor to
      `alignItems` instead of "center", and `justify="constructor"` does the
      same to `justifyContent`. */
  lemma ConstructorCounterexample()
    ensures AlignItemsAsWritten("constructor") == Inherited("constructor")
    ensures AlignItems("constructor") == "center"
    ensures JustifyContentAsWritten("constructor") == Inherited("constructor")
    ensures JustifyContent("constructor") == "center"
  {
  }

  // ---------------------------------------------------------------------
  // Style merge
  // ---------------------------------------------------------------------

  /** An inline style: property name to value, numbers written as text. */
  type Style = map<string, string>

  function ContainerDefaults(align: string, justify: string): Style {
    map[
      "position" := "fixed", "inset" := "0", "zIndex" := "1000", "display" := "flex",
      "alignItems" := AlignItems(align), "justifyContent" := JustifyContent(justify),
      "padding" := "12px"
    ]
  }

  const DialogDefaults: Style := map[
    "position" := "relative", "zIndex" := "1", "background" := "#ffffff",
    "borderRadius" := "12px", "boxShadow" := "0 20px 60px rgba(0, 0, 0, 0.2)",
    "maxWidth" := "92vw"
  ]

  /** `safeContainerStyle`: the caller's `containerStyle` overrides every
      default, but `pointerEvents` is always "auto". */
  function SafeContainerStyle(align: string, justify: string, user: Style): (r: Style)
    ensures "pointerEvents" in r && r["pointerEvents"] == "auto"
    ensures r.Keys == ContainerDefaults(align, justify).Keys + user.Keys + {"pointerEvents"}
    ensures forall k :: k in user && k != "pointerEvents" ==> r[k] == user[k]
    ensures forall k :: k in ContainerDefaults(align, justify) && k !in user && k != "pointerEvents" ==>
      r[k] == ContainerDefaults(align, justify)[k]
  {
    ContainerDefaults(align, justify) + user + map["pointerEvents" := "auto"]
  }

  /** `safeDialogStyle`: the caller's `style` overrides every default, but
      `display` is always "flex", whatever `style.display` was. */
  function SafeDialogStyle(user: Style): (r: Style)
    ensures "display" in r && r["display"] == "flex"
    ensures r.Keys == DialogDefaults.Keys + user.Keys + {"display"}
    ensures forall k :: k in user && k != "display" ==> r[k] == user[k]
    ensures forall k :: k in DialogDefaults && k !in user && k != "display" ==> r[k] == DialogDefaults[k]
  {
    var display := if "display" in user && user["display"] == "none" then "flex" else "flex";
    DialogDefaults + user + map["display" := display]
  }

  /** Only `pointerEvents` is pinned on the container: a caller can still
      hide it, and can still override the computed alignment. */
  lemma ContainerDisplayNotPinned(align: string, justify: string, user: Style)
    requires "display" in user && "alignItems" in user
    ensures SafeContainerStyle(align, justify, user)["display"] == user["display"]
    ensures SafeContainerStyle(align, justify, user)["alignItems"] == user["alignItems"]
  {
  }

  // ---------------------------------------------------------------------
  // Gating of the scroll lock on the props
  // ---------------------------------------------------------------------

  /** The dependencies of the scroll-lock effect. */
  datatype LockDeps = LockDeps(open: bool, lockScroll: bool)

  /** Whether a committed render with these props holds one lock. */
  predicate HoldsLock(d: LockDeps) {
    d.open && d.lockScroll
  }

  function Held(d: LockDeps): int {
    if HoldsLock(d) then 1 else 0
  }

  /** The effect body: acquire only when open and locking is wanted. */
  function Setup(s: Lock, d: LockDeps): Lock {
    if HoldsLock(d) then Enable(s) else s
  }

  /** The cleanup the effect returned: present only when the effect
      acquired. */
  function Cleanup(s: Lock, d: LockDeps): Lock {
    if HoldsLock(d) then Disable(s) else s
  }

  /** A render commit: unchanged dependencies keep the effect; changed ones
      run the old cleanup and then the new effect. */
  function Commit(s: Lock, prev: LockDeps, next: LockDeps): (r: Lock)
    ensures prev == next ==> r == s
    ensures s.count >= Held(prev) ==> r.count == s.count - Held(prev) + Held(next)
    ensures HoldsLock(prev) == HoldsLock(next) && s.count >= 1 ==> r.count == s.count
  {
    if prev == next then s else Setup(Cleanup(s, prev), next)
  }

  /** Commits `renders` one by one, starting from the props `cur`. */
  function Rerender(s: Lock, cur: LockDeps, renders: seq<LockDeps>): Lock
    decreases |renders|
  {
    if renders == [] then s else Rerender(Commit(s, cur, renders[0]), renders[0], renders[1..])
  }

  function LastDeps(cur: LockDeps, renders: seq<LockDeps>): LockDeps {
    if renders == [] then cur else renders[|renders| - 1]
  }

  /** One Modal's whole life: mounted with `renders[0]`, re-rendered with
      the rest, then unmounted. */
  function Session(s: Lock, renders: seq<LockDeps>): Lock
    requires |renders| > 0
  {
    var mounted := Setup(s, renders[0]);
    var last := LastDeps(renders[0], renders[1..]);
    Cleanup(Rerender(mounted, renders[0], renders[1..]), last)
  }

  /** While a Modal is mounted, it holds exactly one lock when its last
      committed props are open with lockScroll, and none otherwise. */
  lemma {:induction false} RerenderHoldsOne(s: Lock, cur: LockDeps, renders: seq<LockDeps>)
    requires s.count >= Held(cur)
    ensures Rerender(s, cur, renders).count == s.count - Held(cur) + Held(LastDeps(cur, renders))
    decreases |renders|
  {
    if renders != [] {
      var t := Commit(s, cur, renders[0]);
      assert t.count == s.count - Held(cur) + Held(renders[0]);
      RerenderHoldsOne(t, renders[0], renders[1..]);
      if |renders| > 1 {
        assert LastDeps(renders[0], renders[1..]) == LastDeps(cur, renders);
      }
    }
  }

  /** Re-renders never disturb a page that the lock tracks. */
  lemma {:induction false} RerenderTracks(s: Lock, v: string, cur: LockDeps, renders: seq<LockDeps>)
    requires Tracks(s, v)
    requires s.count >= Held(cur)
    ensures Tracks(Rerender(s, cur, renders), v)
    decreases |renders|
  {
    if renders != [] {
      var t := Commit(s, cur, renders[0]);
      assert Tracks(t, v) && t.count >= Held(renders[0]);
      RerenderTracks(t, v, renders[0], renders[1..]);
    }
  }

  /** Every acquisition of a Modal is paired with exactly one release: an
      unmounted Modal leaves the counter as it found it. */
  lemma SessionReleasesLock(s: Lock, renders: seq<LockDeps>)
    requires |renders| > 0
    requires s.count >= 0
    ensures Session(s, renders).count == s.count
  {
    var mounted := Setup(s, renders[0]);
    RerenderHoldsOne(mounted, renders[0], renders[1..]);
  }

  /** ... and leaves the page itself as it found it, whether another Modal
      still holds the lock or the page was free. */
  lemma SessionRestoresPage(s: Lock, v: string, renders: seq<LockDeps>)
    requires |renders| > 0
    requires Tracks(s, v)
    ensures Session(s, renders) == s
  {
    var mounted := Setup(s, renders[0]);
    RerenderHoldsOne(mounted, renders[0], renders[1..]);
    RerenderTracks(mounted, v, renders[0], renders[1..]);
  }

  /** One commit keeps the page shown and moves the count by the change in
      what this Modal holds. */
  lemma CommitShows(s: Lock, o: string, prev: LockDeps, next: LockDeps)
    requires Shows(s, o)
    requires s.count >= Held(prev)
    ensures Shows(Commit(s, prev, next), o)
    ensures Commit(s, prev, next).count == s.count - Held(prev) + Held(next)
  {
    if prev != next {
      var c := Cleanup(s, prev);
      if HoldsLock(prev) {
        StepShows(s, o, Release);
      }
      if HoldsLock(next) {
        StepShows(c, o, Acquire);
      }
    }
  }

  /** Re-renders on the default page, whose inline overflow is unset: it is
      untouched until some render holds the lock, and from then on it
      tracks "auto". */
  lemma {:induction false} RerenderDefaultPage(s: Lock, cur: LockDeps, renders: seq<LockDeps>)
    requires Shows(s, "")
    requires s.count == Held(cur)
    ensures var r := Rerender(s, cur, renders);
      && Shows(r, "")
      && r.count == Held(LastDeps(cur, renders))
      && (r == Init("") <==> s == Init("") && forall i :: 0 <= i < |renders| ==> !HoldsLock(renders[i]))
    decreases |renders|
  {
    if renders != [] {
      var t := Commit(s, cur, renders[0]);
      CommitShows(s, "", cur, renders[0]);
      assert t == Init("") <==> s == Init("") && !HoldsLock(renders[0]);
      RerenderDefaultPage(t, renders[0], renders[1..]);
      if |renders| > 1 {
        assert LastDeps(renders[0], renders[1..]) == LastDeps(cur, renders);
      }
      assert forall i :: 1 <= i < |renders| ==> renders[i] == renders[1..][i - 1];
    }
  }

  /** A whole session on the default page: if any render held the lock,
      the page ends with overflow "auto" rather than unset; otherwise it is
      untouched. */
  lemma SessionOnDefaultPage(renders: seq<LockDeps>)
    requires |renders| > 0
    ensures Session(Init(""), renders) ==
      if exists i :: 0 <= i < |renders| && HoldsLock(renders[i]) then Init("auto") else Init("")
  {
    var mounted := Setup(Init(""), renders[0]);
    var last := LastDeps(renders[0], renders[1..]);
    CommitShows(Init(""), "", LockDeps(false, false), renders[0]);
    assert mounted == Commit(Init(""), LockDeps(false, false), renders[0]);
    RerenderDefaultPage(mounted, renders[0], renders[1..]);
    var r := Rerender(mounted, renders[0], renders[1..]);
    CommitShows(r, "", last, LockDeps(false, false));
    assert Session(Init(""), renders) == Commit(r, last, LockDeps(false, false));
    assert forall i :: 1 <= i < |renders| ==> renders[i] == renders[1..][i - 1];
  }

  // ---------------------------------------------------------------------
  // Escape and backdrop
  // ---------------------------------------------------------------------

  /** The document keydown listener: installed only while `open &&
      closeOnEsc`, it calls `onClose`, if one was given, on Escape. */
  function EscapeCallsClose(open: bool, closeOnEsc: bool, hasOnClose: bool, key: string): (r: bool)
    ensures r <==> open && closeOnEsc && key == "Escape" && hasOnClose
    ensures !open || !closeOnEsc ==> !r
  {
    if !open || !closeOnEsc then false
    else key == "Escape" && hasOnClose
  }

  /** The overlay's click handler: `dismissOnBackdrop && onClose?.()`. The
      overlay has no children and the dialog is its sibling, so a click on
      dialog content never reaches it. */
  function BackdropCallsClose(dismissOnBackdrop: bool, hasOnClose: bool): (r: bool)
    ensures r <==> dismissOnBackdrop && hasOnClose
  {
    dismissOnBackdrop && hasOnClose
  }

  // ---------------------------------------------------------------------
  // Portal selector
  // ---------------------------------------------------------------------

  /** JavaScript's `\s`: the ASCII white space, no-break space, the Unicode
      space separators, line and paragraph separators, and the BOM. */
  predicate JsWhitespace(c: char) {
    || c == '\t' || c == '\n' || c == '\U{000B}' || c == '\U{000C}' || c == '\r' || c == ' '
    || c == '\U{00A0}' || c == '\U{1680}' || ('\U{2000}' <= c <= '\U{200A}')
    || c == '\U{2028}' || c == '\U{2029}' || c == '\U{202F}' || c == '\U{205F}'
    || c == '\U{3000}' || c == '\U{FEFF}'
  }

  /** One character of the class `[a-zA-Z0-9\-#\.:\[\]="'\s]`. */
  predicate SelectorChar(c: char) {
    || ('a' <= c <= 'z') || ('A' <= c <= 'Z') || ('0' <= c <= '9')
    || c == '-' || c == '#' || c == '.' || c == ':' || c == '[' || c == ']'
    || c == '=' || c == '"' || c == '\'' || JsWhitespace(c)
  }

  predicate AllSelectorChars(s: string) {
    forall i | 0 <= i < |s| :: SelectorChar(s[i])
  }

  /** The selector the Portal mounts into. `queryThrows` stands for whether
      `document.querySelector` rejects a string as a selector. */
  function PortalTarget(selector: Value, queryThrows: string -> bool): (r: string)
    ensures r != "" && AllSelectorChars(r)
    ensures r == "body" || (selector == Str(r) && !queryThrows(r))
    ensures selector.Str? && selector.s != "" && AllSelectorChars(selector.s) && !queryThrows(selector.s) ==>
      r == selector.s
  {
    if selector.Str? && |selector.s| > 0 && AllSelectorChars(selector.s) && !queryThrows(selector.s)
    then selector.s
    else "body"
  }

  /** The check as the regular expression runs it, one character at a time. */
  method CheckPortalTarget(selector: Value, queryThrows: string -> bool) returns (r: string)
    ensures r == PortalTarget(selector, queryThrows)
  {
    r := "body";
    if selector.Str? && |selector.s| > 0 {
      var s := selector.s;
      var i := 0;
      var ok := true;
      while i < |s|
        invariant 0 <= i <= |s|
        invariant ok <==> forall j | 0 <= j < i :: SelectorChar(s[j])
      {
        if !SelectorChar(s[i]) {
          ok := false;
        }
        i := i + 1;
      }
      if ok && !queryThrows(s) {
        r := s;
      }
    }
  }

  /** Validating an already validated selector changes nothing. */
  lemma PortalTargetIdempotent(selector: Value, queryThrows: string -> bool)
    ensures PortalTarget(Str(PortalTarget(selector, queryThrows)), queryThrows) == PortalTarget(selector, queryThrows)
  {
  }

  // ---------------------------------------------------------------------
  // useModal driving a Modal
  // ---------------------------------------------------------------------

  /** The options a `useModal` caller fixes for its Modal. */
  datatype Options = Options(lockScroll: bool, closeOnEsc: bool, dismissOnBackdrop: bool)

  /** The hook's `open` state and the page-wide lock it drives. */
  datatype Hooked = Hooked(open: bool, lock: Lock)

  /** What can happen to a hook-driven Modal. */
  datatype UiEvent = OpenCalled | CloseCalled | SetOpenCalled(v: bool) | KeyPressed(key: string) | BackdropClicked

  /** The hook's next `open`: `openModal` and `closeModal` set it to true
      and false, and `closeModal` is the Modal's `onClose`. The overlay only
      exists while open. */
  function NextOpen(open: bool, opts: Options, e: UiEvent): (r: bool)
    ensures e == OpenCalled ==> r
    ensures e == CloseCalled ==> !r
    ensures r && !open ==> e == OpenCalled || e == SetOpenCalled(true)
  {
    match e
    case OpenCalled => true
    case CloseCalled => false
    case SetOpenCalled(v) => v
    case KeyPressed(key) => if EscapeCallsClose(open, opts.closeOnEsc, true, key) then false else open
    case BackdropClicked => if open && BackdropCallsClose(opts.dismissOnBackdrop, true) then false else open
  }

  /** One event followed by the commit it triggers. */
  function Handle(h: Hooked, opts: Options, e: UiEvent): Hooked {
    var open := NextOpen(h.open, opts, e);
    Hooked(open, Commit(h.lock, LockDeps(h.open, opts.lockScroll), LockDeps(open, opts.lockScroll)))
  }

  function HandleAll(h: Hooked, opts: Options, es: seq<UiEvent>): Hooked
    decreases |es|
  {
    if es == [] then h else HandleAll(Handle(h, opts, es[0]), opts, es[1..])
  }

  /** Escape closes an open hook-driven Modal exactly when closeOnEsc is
      set; a backdrop click closes it exactly when dismissOnBackdrop is set;
      no other key changes anything. */
  lemma KeyAndBackdropClose(h: Hooked, opts: Options, key: string)
    ensures Handle(h, opts, KeyPressed(key)).open == (h.open && !(opts.closeOnEsc && key == "Escape"))
    ensures Handle(h, opts, BackdropClicked).open == (h.open && !opts.dismissOnBackdrop)
    ensures key != "Escape" ==> Handle(h, opts, KeyPressed(key)) == h
  {
  }

  /** Over any events, the hook-driven Modal holds one lock exactly while
      it is open with lockScroll, on top of what other modals hold. */
  lemma {:induction false} HookHoldsLockWhileOpen(h: Hooked, opts: Options, es: seq<UiEvent>, others: int)
    requires others >= 0
    requires h.lock.count == others + Held(LockDeps(h.open, opts.lockScroll))
    ensures HandleAll(h, opts, es).lock.count == others + Held(LockDeps(HandleAll(h, opts, es).open, opts.lockScroll))
    decreases |es|
  {
    if es != [] {
      var t := Handle(h, opts, es[0]);
      assert t.lock.count == others + Held(LockDeps(t.open, opts.lockScroll));
      HookHoldsLockWhileOpen(t, opts, es[1..], others);
    }
  }

  /** Over any events, the page under a hook-driven Modal stays one its own
      overflow `o` can show: untouched, or hidden and restored to `o` ("auto"
      when `o` is unset). This includes a fresh hook on the default page,
      `Hooked(false, Init(""))`. */
  lemma {:induction false} HookKeepsPage(h: Hooked, opts: Options, es: seq<UiEvent>, others: int, o: string)
    requires others >= 0
    requires h.lock.count == others + Held(LockDeps(h.open, opts.lockScroll))
    requires Shows(h.lock, o)
    ensures Shows(HandleAll(h, opts, es).lock, o)
    decreases |es|
  {
    if es != [] {
      var t := Handle(h, opts, es[0]);
      CommitShows(h.lock, o, LockDeps(h.open, opts.lockScroll), LockDeps(t.open, opts.lockScroll));
      HookKeepsPage(t, opts, es[1..], others, o);
    }
  }
}

=== FILE: scroll_lock.dfy ===
/** The process-wide, reference-counted scroll lock of the React binding:
    a module-level counter plus two slots on `document.body`, the inline
    `overflow` style and `dataset.scrollLockPrev`. */
module ScrollLock {
  import opened Js

  /** The parts of `document.body` the lock reads and writes. */
  datatype Body = Body(overflow: string, saved: Option<string>)

  /** The counter together with the body it guards. The counter is an `int`
      so that "never negative" is a property rather than a type. */
  datatype Lock = Lock(count: int, body: Body)

  datatype Op = Acquire | Release

  /** A page before any modal has locked it. */
  function Init(overflow: string): Lock {
    Lock(0, Body(overflow, None))
  }

  /** `enableScrollLock`: on the 0 -> 1 edge remember the overflow (an unset
      one as "auto") and hide it; always count one more holder. */
  function Enable(s: Lock): (r: Lock)
    ensures r.count == s.count + 1
    ensures s.count == 0 ==> r.body.overflow == "hidden" && r.body.saved == Some(StringOr(s.body.overflow, "auto"))
    ensures s.count != 0 ==> r.body == s.body
  {
    if s.count == 0 then
      var prev := s.body.overflow;
      Lock(s.count + 1, Body("hidden", Some(StringOr(prev, "auto"))))
    else
      Lock(s.count + 1, s.body)
  }

  /** `disableScrollLock`: count one holder less, floored at zero; whenever
      the count is then zero, put back the remembered overflow (an unset or
      empty one as "auto") and forget it. */
  function Disable(s: Lock): (r: Lock)
    ensures r.count >= 0
    ensures s.count >= 1 ==> r.count == s.count - 1
    ensures s.count <= 1 ==> r.count == 0
    ensures r.count == 0 ==> r.body == Body(OptionOr(s.body.saved, "auto"), None)
    ensures r.count != 0 ==> r.body == s.body
  {
    var count := if 0 > s.count - 1 then 0 else s.count - 1;
    if count == 0 then
      Lock(count, Body(OptionOr(s.body.saved, "auto"), None))
    else
      Lock(count, s.body)
  }

  function Step(s: Lock, op: Op): Lock {
    match op
    case Acquire => Enable(s)
    case Release => Disable(s)
  }

  /** The lock after the calls `ops`, first call first. */
  function Run(s: Lock, ops: seq<Op>): Lock
    decreases |ops|
  {
    if ops == [] then s else Run(Step(s, ops[0]), ops[1..])
  }

  /** The states the lock can reach from a fresh page: while held, the body
      is hidden and a non-empty overflow is remembered; while free, nothing
      is remembered. */
  ghost predicate Valid(s: Lock) {
    && s.count >= 0
    && (s.count == 0 ==> s.body.saved == None)
    && (s.count > 0 ==> s.body.overflow == "hidden" && s.body.saved.Some? && s.body.saved.value != "")
  }

  /** `s` is consistent with the page whose own overflow is `v`: hidden with
      `v` remembered while held, showing `v` with nothing remembered while
      free. */
  ghost predicate Tracks(s: Lock, v: string) {
    && v != ""
    && s.count >= 0
    && (s.count == 0 ==> s.body == Body(v, None))
    && (s.count > 0 ==> s.body == Body("hidden", Some(v)))
  }

  /** `s` is a state that the page whose own inline overflow is `o` can be
      in while nobody over-releases: still untouched, or consistent with
      `o`, where an unset (empty) overflow has been read back as "auto". */
  ghost predicate Shows(s: Lock, o: string) {
    s == Init(o) || Tracks(s, StringOr(o, "auto"))
  }

  /** On a page with an own overflow, Shows and Tracks coincide; only the
      default page (empty overflow) has the extra untouched state. */
  lemma ShowsTracks(s: Lock, o: string)
    ensures o != "" ==> (Shows(s, o) <==> Tracks(s, o))
    ensures Shows(Init(o), o)
  {
  }

  /** A call that does not over-release keeps the page shown. */
  lemma StepShows(s: Lock, o: string, op: Op)
    requires Shows(s, o)
    requires op == Release ==> s.count >= 1
    ensures Shows(Step(s, op), o)
  {
  }

  /** How many more holders the calls leave than they found, ignoring the
      floor at zero. */
  function Net(ops: seq<Op>): int
    decreases |ops|
  {
    if ops == [] then 0 else (if ops[0] == Acquire then 1 else -1) + Net(ops[1..])
  }

  /** No call in `ops` releases a lock that, starting from `k` holders, is
      not held at that point. */
  predicate NoOverRelease(k: int, ops: seq<Op>)
    decreases |ops|
  {
    ops == [] ||
    (if ops[0] == Acquire then NoOverRelease(k + 1, ops[1..])
     else k >= 1 && NoOverRelease(k - 1, ops[1..]))
  }

  /** Any sequence of enable/disable calls, balanced or not, keeps the
      counter at zero or above. */
  lemma {:induction false} CountNeverNegative(s: Lock, ops: seq<Op>)
    requires s.count >= 0
    ensures Run(s, ops).count >= 0
    decreases |ops|
  {
    if ops != [] {
      CountNeverNegative(Step(s, ops[0]), ops[1..]);
    }
  }

  /** Every reachable state stays valid, whatever the calls. */
  lemma {:induction false} RunPreservesValid(s: Lock, ops: seq<Op>)
    requires Valid(s)
    ensures Valid(Run(s, ops))
    decreases |ops|
  {
    if ops != [] {
      RunPreservesValid(Step(s, ops[0]), ops[1..]);
    }
  }

  /** Releasing a lock that is not held leaves the count at zero, and still
      writes the body: the overflow becomes "auto" even though nothing had
      hidden it. */
  lemma ReleaseWhenFree(o: string)
    ensures Disable(Init(o)) == Init("auto")
  {
  }

  /** Disable undoes Enable: exactly on a held lock, and up to the "auto"
      default on a free one. */
  lemma DisableUndoesEnable(s: Lock)
    requires Valid(s)
    ensures s.count > 0 ==> Disable(Enable(s)) == s
    ensures s.count == 0 ==> Disable(Enable(s)) == Init(StringOr(s.body.overflow, "auto"))
  {
  }

  /** While no call over-releases, the counter follows the calls exactly
      and the body stays consistent with the same page overflow. */
  lemma {:induction false} RunTracks(s: Lock, v: string, ops: seq<Op>)
    requires Tracks(s, v)
    requires NoOverRelease(s.count, ops)
    ensures Run(s, ops).count == s.count + Net(ops)
    ensures Tracks(Run(s, ops), v)
    decreases |ops|
  {
    if ops != [] {
      var t := Step(s, ops[0]);
      assert Tracks(t, v);
      RunTracks(t, v, ops[1..]);
    }
  }

  /** A balanced, never over-releasing sequence of calls from a fresh page
      gives the page back: its own overflow, or "auto" if it had none. */
  lemma BalancedRestoresOverflow(o: string, ops: seq<Op>)
    requires ops != []
    requires NoOverRelease(0, ops)
    requires Net(ops) == 0
    ensures Run(Init(o), ops) == Init(StringOr(o, "auto"))
  {
    var v := StringOr(o, "auto");
    assert ops[0] == Acquire;
    var t := Enable(Init(o));
    assert Tracks(t, v);
    RunTracks(t, v, ops[1..]);
  }

  /** Two nested modals: closing the inner one keeps the page locked, and
      closing the outer one unlocks it. */
  lemma NestedModals(o: string)
    ensures Run(Init(o), [Acquire, Acquire, Release]).body.overflow == "hidden"
    ensures Run(Init(o), [Acquire, Acquire, Release, Release]) == Init(StringOr(o, "auto"))
  {
  }
}
